=== FILE: README.md ===
# Wifi connection and request manager of the temperature display

This project is a Dafny model of two parts of an OpenMono temperature display's firmware.

The first part is the `Wifi` class. It joins an access point using an SSID and password from the configuration store. Over that link it then runs one HTTP GET at a time. It reports what happens through three single-slot handlers:

- the ready handler, attached by `connect`;
- the change handler, which receives status values;
- the document handler, which receives the byte buffer.

The second part is the application code that drives the `Wifi`:

- `initWifi` and the wifi-logo flag;
- `uploadData`, which uploads the last reading as a query string;
- the pure helpers that format a temperature and map it onto the glyphs of the bitmap font.

Every operation and every radio or HTTP event is a pure function. It returns the next state and a trace of what happened, in order. Trace entries are radio initialisation, radio join, callback registration, HTTP client creation and handler calls. A handler call records two things:

- what its slot held (`None` is a null function pointer);
- `visible`, the status that `status()` would return from inside the handler.

The order of "update the status" against "notify" is stated through `visible`. The three event handlers `networkReadyHandler`, `errorCallback` and `httpHandleData` are written as lists of statements (`Wifi.Stmt`). The lists keep the firmware's order: status assignments, buffer additions and handler calls. `Wifi.Exec` runs such a list in order. Each call records the status stored at that point, so the `visible` values in the contracts follow from the order of the statements.

Modules:

- `Types` holds bytes and `Option`.
- `WifiStatus` holds the `Status` enumeration.
- `Wifi` holds the state and one function per call or event.
- `WifiRuns` holds event sequences, the invariants along them and buffer accumulation.
- `Decimal` holds `printf`'s `%i` and its parser.
- `Font` holds `translateCharToFontIndex` and the glyph offsets of `blitChar`.
- `TemperatureFormat` holds `formatTemperature`.
- `AppController` holds `initWifi`, the ready handler, sleep and wake, and `uploadData`.

The model follows the code in these details:

- `errorCallback` calls the change handler with `BrokenReply` while the old status is still stored. Only after that call does it set `Ready`. It does not set the status first.
- `httpHandleData` does not check that the status is `Receiving`. A non-failed chunk is added to the buffer in whatever state it arrives.
- A credential counts as missing only when the configuration lookup returns null. An empty string is present.
- A refused `get` calls the change-handler slot even when no change handler is passed. That slot may hold a handler attached by an earlier call.

## Model

| member | source | states |
|---|---|---|
| WifiStatus.Ordinal | lib/wifi.hpp:24-34 | each status's enumeration value is below 8 and indexes that status in the declaration-order list |
| WifiStatus.FromOrdinal | lib/wifi.hpp:24-34 | the status with value n has enumeration value n |
| WifiStatus.OrdinalsFollowDeclarationOrder | lib/wifi.hpp:24-34 | exactly eight statuses, numbered 0..7 in declaration order, numbering injective and invertible |
| Wifi.Attach | lib/wifi.hpp:78 | attaching a non-null handler replaces the slot; a null one keeps the previous handler |
| Wifi.NewWifi | lib/wifi.cpp:5-12 | a fresh instance is NotConnected with a null buffer and no handlers attached |
| Wifi.StartConnection | lib/wifi.cpp:21-47 | returns what it stores; BrokenConfiguration iff SSID or password is missing, then no radio activity and nothing else changes; otherwise Connecting, exactly one radio initialisation, join with the credentials, ready callback registered last |
| Wifi.Connect | lib/wifi.hpp:49-54 | stores the ready handler and returns exactly what startConnection returns |
| Wifi.NetworkReady | lib/wifi.cpp:49-54 | runs the handler body, status assignment then ready-handler call: the status becomes Ready, and the ready handler is called with Ready already visible |
| Wifi.NetworkReadyOrderMatters | lib/wifi.cpp:52-53 | with the two statements swapped, the ready handler would see the old status, so the proved order depends on the body's order |
| Wifi.StartRequest | lib/wifi.cpp:56-66 | opens a client for the URL, sets and returns Receiving, nothing else changes |
| Wifi.Get | lib/wifi.hpp:69-87 | a non-null change handler is attached even on refusal; NotReady iff status is not Ready, then the change handler gets the current status (not NotReady) and nothing else changes; when Ready: buffer stored, document handler replaced only if non-null, client opened, returns Receiving |
| Wifi.ErrorCallback | lib/wifi.cpp:68-75 | running the body, call then assignment: the change handler gets BrokenReply while the old status is visible, then status becomes Ready; document handler not called |
| Wifi.Append | lib/wifi.cpp:86-88 | a non-null buffer becomes old contents followed by the chunk; a null buffer stays null |
| Wifi.HttpHandleData | lib/wifi.cpp:77-99 | running the body statement by statement: failed context: no change, no notification; otherwise the chunk is appended; final chunk: Ready set, then change handler with Ready, then document handler with the buffer; other chunks: status unchanged, change handler with current status |
| WifiRuns.ApplyKeepsStored | lib/wifi.cpp:21-99 | no single call or event stores NotReady, BrokenUrl or BrokenReply |
| WifiRuns.RunKeepsStored | lib/wifi.cpp:21-99 | along any sequence of calls and events the stored status stays among NotConnected, BrokenConfiguration, Connecting, Ready, Receiving |
| WifiRuns.NeverStoresRejectionOrError | lib/wifi.hpp:79-83 | from a constructed instance, NotReady, BrokenUrl and BrokenReply are never the stored status |
| WifiRuns.RunReadyBeforeCompletion | lib/wifi.cpp:49-94 | in every run, the ready handler and the document handler only ever run with Ready visible |
| WifiRuns.ChunksAccumulate | lib/wifi.cpp:86-98 | after a run of non-final chunks, the buffer is old contents followed by the chunks in order, nothing else changes, one change notification with the unchanged status per chunk |
| WifiRuns.SuccessfulResponse | lib/wifi.cpp:86-94 | after the chunks and the final chunk the buffer holds every chunk in order, status Ready; one change notification with the unchanged status per non-final chunk, then the change handler with Ready, then the document handler with the buffer, so the document handler runs exactly once, last |
| WifiRuns.FinalChunk | lib/wifi.cpp:86-94 | the final chunk extends the buffer and sets Ready, then the change handler gets Ready, then the document handler gets the extended buffer |
| WifiRuns.FailedResponse | lib/wifi.cpp:68-88 | chunks before a transport error stay in the buffer, status ends Ready; the whole trace is one Receiving notification per chunk, then BrokenReply with Receiving still visible, and the document handler is never called |
| WifiRuns.FailedContextIgnored | lib/wifi.cpp:79-84 | data on a failed request context changes nothing and notifies nobody |
| WifiRuns.RejectedGetChangesOnlyStatusHandler | lib/wifi.hpp:78-83 | a refused get leaves status, buffer, document handler and client as they were and notifies the current status |
| WifiRuns.ScenarioConnect | lib/wifi.cpp:42-53 | connect with credentials then the ready event: Ready, one radio initialisation, the whole trace is initialisation, join, callback registration, then the ready handler exactly once with Ready visible |
| WifiRuns.ScenarioThreeChunks | lib/wifi.cpp:56-98 | "ab", "cd", then final "ef" into an empty buffer leave "abcdef" and status Ready; the whole trace is the client opened, Receiving twice, Ready once, then the document handler exactly once with "abcdef" |
| WifiRuns.ScenarioErrorFirst | lib/wifi.cpp:68-75 | a transport error before any chunk leaves the buffer empty and notifies BrokenReply; document handler never called |
| WifiRuns.ScenarioGetWhileConnecting | lib/wifi.hpp:79-83 | get while Connecting returns NotReady and leaves the state as it was |
| Decimal.NatDigits | app_controller.cpp:123-124 | the decimal digits of a number are non-empty, all digits, with no leading zero |
| Decimal.NatDigitsRoundTrip | app_controller.cpp:123-124 | reading the digits of n gives n |
| Decimal.NatDigitsLength | app_controller.cpp:122-124 | a number below 10^k has at most k digits |
| Decimal.FormatInt | app_controller.cpp:123-124 | %i text starts with '-' iff the number is negative; every other character is a digit; the digits have no leading zero (only 0 itself starts with '0'), so with the round trip the text is fixed exactly |
| Decimal.FormatIntRoundTrip | app_controller.cpp:181 | reading what %i wrote gives the number back |
| Decimal.FormatIntLength32 | app_controller.cpp:122-124 | a 32-bit integer is written in at most 11 characters |
| Font.FontIndex | app_controller.cpp:185-198 | result below 15; '0'..'9' map to 0..9; each glyph character maps to its own position; every other character maps to 0 |
| Font.FontIndexInvertsGlyphs | app_controller.cpp:185-198 | the 15 glyph characters map to 0..14 in order, so distinct glyph characters get distinct indices |
| Font.GlyphOffset | app_controller.cpp:227-249 | for index 0..14 the slice starts at 1 or later and ends by byte 326 of the row |
| Font.GlyphOffsetsIncrease | app_controller.cpp:227-249 | offsets strictly increase with the index, consecutive ones are 21 or 22 bytes apart, and the last glyph ends exactly at the row's end |
| Font.GlyphBytesStayInRow | app_controller.cpp:250-260 | every byte blitChar reads for any character lies in the row of its line and inside the 42-row bitmap |
| TemperatureFormat.FormatTemperature | app_controller.cpp:120-126 | no contract of its own: the whole part, ".", the hundredths, a "0" after one-digit hundredths, "o", the unit; its properties are stated by AsWrittenReading, AsWrittenCollides, FormatTemperatureRenderable and FormatTemperatureFits |
| TemperatureFormat.AsWrittenReading | app_controller.cpp:120-126 | the text reads back as whole, unit and hundredths, but one-digit hundredths read as ten times their value |
| TemperatureFormat.AsWrittenCollides | app_controller.cpp:123 | 20 with 5 hundredths and 20 with 50 hundredths both give "20.50oC" |
| TemperatureFormat.IntendedReading | app_controller.cpp:123-124 | with the zero in front, the text reads back exactly as whole, hundredths and unit |
| TemperatureFormat.IntendedInjective | app_controller.cpp:123-124 | with the zero in front, different readings never give the same text |
| TemperatureFormat.FormatTemperatureRenderable | app_controller.cpp:120-126 | for unit 'C' or 'F' every character of the text is one of the 15 glyphs and is drawn as itself |
| TemperatureFormat.IntendedRenderable | app_controller.cpp:120-126 | with the zero in front, every character of the text for unit 'C' or 'F' is still one of the 15 glyphs and is drawn as itself |
| TemperatureFormat.FormatTemperatureFits | app_controller.cpp:122-124 | for a 32-bit whole part and hundredths 0..99 the text takes at most 19 characters, so it fits char[20] with its terminator |
| AppController.NewApp | app_controller.cpp:31-44 | the application starts with no instance, logo hidden and reading zero |
| AppController.InitWifi | app_controller.cpp:209-216 | a fresh instance replaces the old one, connected with the application's ready handler; Connecting, or BrokenConfiguration iff a credential is missing; nothing else changes |
| AppController.InitWifiReplacesInstance | app_controller.cpp:209-216 | the new instance and its effects do not depend on the previous one |
| AppController.Deliver | app_controller.cpp:218-222 | the logo is shown iff it already was or the trace calls the application's ready handler; nothing else changes |
| AppController.NetworkReadyEvent | app_controller.cpp:218-222 | the ready event makes the instance Ready and shows the logo when the ready handler is the application's |
| AppController.WillGotoSleep | app_controller.cpp:75-78 | going to sleep hides the logo and changes nothing else |
| AppController.WakeFromSleep | app_controller.cpp:63-73 | waking resets the reading to zero and installs the same fresh instance and trace as initWifi: it carries the application's ready handler, and it is BrokenConfiguration iff a credential is missing, otherwise Connecting |
| AppController.WakeFromReset | app_controller.cpp:45-61 | the upload URL comes from the configuration; the instance and trace are initWifi's: the application's ready handler is attached, and it is BrokenConfiguration iff a credential is missing, otherwise Connecting |
| AppController.UploadUrl | app_controller.cpp:181 | the address is the configured URL, then "?celcius=", then the reading as %i writes it (no leading zero), which reads back as the reading |
| AppController.UploadData | app_controller.cpp:175-183 | no request and no notification unless Ready; when Ready: a request for the upload address, no buffer, no handler calls, Receiving |
| AppController.UploadEvent | app_controller.cpp:175-183 | the application's instance moves to Receiving with the upload address when Ready; otherwise nothing changes |
| AppController.ResetReadyUpload | app_controller.cpp:175-222 | after reset with credentials and the ready event: logo shown, Ready, and the next upload requests the configured URL with the last reading |
| AppController.SleepWakeCycle | app_controller.cpp:45-78 | from construction with both credentials: the logo is hidden after reset, shown after the ready event, hidden by sleep, still hidden after waking (reading 0, Connecting), and shown again after the next ready event |
| AppController.BrokenConfigurationSkipsUpload | app_controller.cpp:175-179 | with a credential missing, the fresh instance is BrokenConfiguration and an upload is skipped |

## Left out

- `Wifi::status()` is a read of the stored status. Here it is the `status` field of the state, so reading it twice gives the same value by construction.
- `destroyClient` has an empty body, and the destructor `Wifi::~Wifi` only calls it. Deleting the instance also runs the destructors of its `HttpClient`, `spi` and `spiComm` members. Those are library code and are not modelled. Replacing the HTTP client or the instance is modelled as overwriting the value.
- `BrokenUrl` is part of the enumeration, but no code path produces it. No transition produces it here either.
- The `WIFI_SSID` and `WIFI_URL` compile-time branches and all `printf` logging are left out.
- The radio module (`Module::initialize`, `setupWifiOnly`, `setNetworkReadyCallback`), the SPI link and `HttpClient` are hardware or library code. Their effects appear only as trace entries. `ClientOpened(url)` stands for creating the `HttpClient` for the URL together with registering its data and error callbacks (lib/wifi.cpp:61-63). The radio's ready event and the HTTP data and error events are inputs that may arrive in any order. The event discipline of those libraries is not modelled.
- Handler calls are recorded in the trace but not run, except the application's ready handler (`AppController.Deliver`). A handler that calls back into the `Wifi` from inside a notification is not modelled.
- `configuration.get` is called twice per key. It is modelled as returning one value per key.
- The caller owns the byte buffer. The model keeps its contents in the state, so a caller changing the buffer between events is not modelled.
- AppController.NetworkReadyEvent: accepted on an instance in any status. On the device the ready event comes only after `startConnection` has registered the callback.
- AppController.WakeFromReset: the upload URL is always present. A null result from `configuration.get(MONO_TEMPERATURE_URL)` is not modelled, because what `mono::String` does with a null pointer is library code.
- AppController.UploadEvent: requires the instance pointer to be non-null, because `uploadData` dereferences it without a check.
- The floating-point parts are left out: the smoothing in `readTemperatureInCelcius`, the Celsius-to-Fahrenheit conversion, the split into whole and hundredths in `update`, and the `TEST_TEMP` simulation. `formatTemperature` takes the whole and hundredths as integers.
- Drawing is display output and is left out: `blitImage`, `blitColor`, `showLogo`, the pixel loops of `drawTemperature` and `blitChar`, and the 8-bit start column computed in `update`. Only the glyph index and offset arithmetic is modelled.
- Touch handling, the sleep timer, the measurement timer and the graph view are left out.
- `app_controller.h` and `internet_upload.h` only declare things. `InternetUpload` is not used by the modelled code.

## Findings

| source | as written | input that shows it | evidently intended | confidence | as-written member | corrected member |
|---|---|---|---|---|---|---|
| app_controller.cpp:123 | `"%i.%i0o%c"` puts the padding zero after a one-digit hundredths value | whole 20, decimals 5 (20.05 degrees) gives "20.50oC", the same text as 20.50 degrees | `"%i.%02io%c"`, a zero in front, so 5 hundredths gives ".05" | high; not executed | TemperatureFormat.AsWrittenReading | TemperatureFormat.IntendedReading |

=== FILE: app_controller.dfy ===
/**
 The parts of the temperature application that drive the `Wifi`: creating and connecting a
 fresh instance, showing the wifi logo once the connection is ready, and uploading the last
 reading.
 */
module AppController {
  import opened Types
  import opened WifiStatus
  import opened Wifi
  import opened Decimal

  /** `AppController::networkReadyHandler`, the only handler the application attaches. */
  const ReadyHandler: Handler := Handler("AppController::networkReadyHandler")

  /** Values the application reads from its configuration store; `None` for a missing key. */
  datatype Configuration = Configuration(ssid: Option<Bytes>, password: Option<Bytes>, url: string)

  /**
   The application fields the connection logic touches. `wifi` is `None` while the pointer is
   null; `lastTemp` is the last reading in thousandths of a degree Celsius.
   */
  datatype App = App(wifi: Option<WifiState>, displayWifiLogo: bool, url: string, lastTemp: int)

  /** The outcome of an application step and what the `Wifi` did during it. */
  datatype AppStep = AppStep(app: App, trace: seq<Event>)

  /** The constructor: no `Wifi` yet, logo hidden, no reading. */
  function NewApp(): (a: App)
    ensures a.wifi.None? && !a.displayWifiLogo && a.lastTemp == 0
  {
    App(None, false, "", 0)
  }

  /**
   `initWifi`: the old instance, if any, is deleted, a fresh one is created and connected with
   the application's ready handler. Nothing but the instance changes.
   */
  function InitWifi(app: App, config: Configuration): (r: AppStep)
    ensures r.app.wifi.Some?
    ensures r.app == app.(wifi := r.app.wifi)
    ensures var w := r.app.wifi.value;
      && w.status in {Connecting, BrokenConfiguration}
      && (w.status == BrokenConfiguration <==> config.ssid.None? || config.password.None?)
      && w.connectHandler == Some(ReadyHandler)
      && w.statusHandler.None? && w.receivedHandler.None?
      && w.buffer.None? && w.client.None?
    ensures NoHandlerCalls(r.trace)
  {
    var c := Connect(NewWifi(), ReadyHandler, config.ssid, config.password);
    AppStep(app.(wifi := Some(c.state)), c.trace)
  }

  /** The previous instance has no influence on the new one. */
  lemma InitWifiReplacesInstance(a1: App, a2: App, config: Configuration)
    ensures InitWifi(a1, config).app.wifi == InitWifi(a2, config).app.wifi
    ensures InitWifi(a1, config).trace == InitWifi(a2, config).trace
  {
  }

  /** True for a call of the application's ready handler. */
  predicate IsAppReadyCall(e: Event)
  {
    e.ConnectCalled? && e.slot == Some(ReadyHandler)
  }

  /**
   Runs the application's side of the handler calls in a trace: a call of its ready handler
   shows the wifi logo; no other handler in a trace belongs to the application.
   */
  function Deliver(app: App, trace: seq<Event>): (r: App)
    ensures r == app.(displayWifiLogo := r.displayWifiLogo)
    ensures r.displayWifiLogo <==>
      app.displayWifiLogo || exists i :: 0 <= i < |trace| && IsAppReadyCall(trace[i])
    decreases |trace|
  {
    if |trace| == 0 then app
    else
      var next := if IsAppReadyCall(trace[0]) then app.(displayWifiLogo := true) else app;
      var r := Deliver(next, trace[1..]);
      assert forall i :: 0 <= i < |trace| - 1 ==> trace[1..][i] == trace[i + 1];
      r
  }

  /**
   The radio's ready event on the current instance: the instance becomes `Ready`, then its ready
   handler runs, which shows the logo when it is the application's.
   */
  function NetworkReadyEvent(app: App): (r: AppStep)
    ensures app.wifi.None? ==> r == AppStep(app, [])
    ensures app.wifi.Some? ==>
      && r.app.wifi == Some(app.wifi.value.(status := Ready))
      && (r.app.displayWifiLogo <==> app.displayWifiLogo || app.wifi.value.connectHandler == Some(ReadyHandler))
      && r.app.url == app.url && r.app.lastTemp == app.lastTemp
  {
    match app.wifi
    case None => AppStep(app, [])
    case Some(w) =>
      var s := NetworkReady(w);
      var r := Deliver(app.(wifi := Some(s.state)), s.trace);
      assert IsAppReadyCall(s.trace[0]) <==> w.connectHandler == Some(ReadyHandler);
      AppStep(r, s.trace)
  }

  /** `monoWillGotoSleep`: the logo is hidden; nothing else changes. */
  function WillGotoSleep(app: App): (r: App)
    ensures !r.displayWifiLogo
    ensures r.wifi == app.wifi && r.url == app.url && r.lastTemp == app.lastTemp
  {
    app.(displayWifiLogo := false)
  }

  /** `monoWakeFromSleep`: the reading restarts from zero and a fresh instance is connected. */
  function WakeFromSleep(app: App, config: Configuration): (r: AppStep)
    ensures r.app.lastTemp == 0
    ensures r.app.url == app.url && r.app.displayWifiLogo == app.displayWifiLogo
    ensures r.app.wifi.Some? && r.app.wifi.value.status in {Connecting, BrokenConfiguration}
    ensures r.app.wifi.value.status == BrokenConfiguration <==> config.ssid.None? || config.password.None?
    ensures r.app.wifi.value.connectHandler == Some(ReadyHandler)
    ensures r.app.wifi == InitWifi(app, config).app.wifi && r.trace == InitWifi(app, config).trace
  {
    InitWifi(app.(lastTemp := 0), config)
  }

  /** `monoWakeFromReset`: the upload URL is read from the configuration and a fresh instance is connected. */
  function WakeFromReset(app: App, config: Configuration): (r: AppStep)
    ensures r.app.url == config.url
    ensures r.app.lastTemp == app.lastTemp && r.app.displayWifiLogo == app.displayWifiLogo
    ensures r.app.wifi.Some? && r.app.wifi.value.status in {Connecting, BrokenConfiguration}
    ensures r.app.wifi.value.status == BrokenConfiguration <==> config.ssid.None? || config.password.None?
    ensures r.app.wifi.value.connectHandler == Some(ReadyHandler)
    ensures r.app.wifi == InitWifi(app, config).app.wifi && r.trace == InitWifi(app, config).trace
  {
    InitWifi(app.(url := config.url), config)
  }

  /** The upload address: the configured URL, then `?celcius=` and the reading in decimal. */
  function UploadUrl(url: string, temp: int): (r: string)
    ensures |r| > |url| + 9
    ensures r[..|url|] == url
    ensures r[|url|..|url| + 9] == "?celcius="
    ensures r[|url| + 9..] == FormatInt(temp)
    ensures ParseInt(r[|url| + 9..]) == Some(temp)
  {
    FormatIntRoundTrip(temp);
    var r := url + "?celcius=" + FormatInt(temp);
    assert r[|url| + 9..] == FormatInt(temp);
    r
  }

  /** What `uploadData` did: nothing, or a request for `url` with the `Wifi`'s reply. */
  datatype Upload = Skipped | Issued(url: string, reply: Reply)

  /**
   `uploadData` on the instance `w`: unless it is `Ready` no request is made and no handler is
   called; otherwise it requests the upload address with no buffer and no handlers, which always
   starts the request.
   */
  function UploadData(w: WifiState, url: string, lastTemp: int): (r: Upload)
    ensures r.Skipped? <==> w.status != Ready
    ensures r.Issued? ==>
      && r.url == UploadUrl(url, lastTemp)
      && r.reply.ret == Receiving
      && r.reply.state == w.(status := Receiving, buffer := None, client := Some(r.url))
      && r.reply.trace == [ClientOpened(r.url)]
  {
    if w.status != Ready then Skipped
    else
      var full := UploadUrl(url, lastTemp);
      Issued(full, Get(w, full, None, None, None))
  }

  /** `uploadData` on the application's instance, which the firmware dereferences without a null check. */
  function UploadEvent(app: App): (r: AppStep)
    requires app.wifi.Some?
    ensures r.app.wifi.Some?
    ensures r.app == app.(wifi := r.app.wifi)
    ensures app.wifi.value.status != Ready ==> r == AppStep(app, [])
    ensures app.wifi.value.status == Ready ==>
      && r.app.wifi.value.status == Receiving
      && r.app.wifi.value.client == Some(UploadUrl(app.url, app.lastTemp))
      && NoHandlerCalls(r.trace)
  {
    match UploadData(app.wifi.value, app.url, app.lastTemp)
    case Skipped => AppStep(app, [])
    case Issued(_, reply) => AppStep(app.(wifi := Some(reply.state)), reply.trace)
  }

  /**
   After a reset with both credentials present and the radio's ready event, the logo is shown
   and the next upload requests the configured URL with the last reading.
   */
  lemma ResetReadyUpload(app: App, config: Configuration)
    requires config.ssid.Some? && config.password.Some?
    ensures var a1 := WakeFromReset(app, config).app;
      var a2 := NetworkReadyEvent(a1).app;
      && a2.displayWifiLogo
      && a2.wifi.Some? && a2.wifi.value.status == Ready
      && UploadEvent(a2).app.wifi.value.client == Some(UploadUrl(config.url, app.lastTemp))
  {
  }

  /**
   From construction through a reset, the ready event, sleep, waking and the next ready event:
   the logo appears only once the connection is ready, sleep hides it, and it comes back with
   the fresh connection after waking.
   */
  lemma SleepWakeCycle(config: Configuration)
    requires config.ssid.Some? && config.password.Some?
    ensures var a1 := WakeFromReset(NewApp(), config).app;
      var a2 := NetworkReadyEvent(a1).app;
      var a3 := WillGotoSleep(a2);
      var a4 := WakeFromSleep(a3, config).app;
      var a5 := NetworkReadyEvent(a4).app;
      && !a1.displayWifiLogo && a1.wifi.value.status == Connecting
      && a2.displayWifiLogo && a2.wifi.value.status == Ready
      && !a3.displayWifiLogo && a3.wifi == a2.wifi
      && !a4.displayWifiLogo && a4.lastTemp == 0 && a4.wifi.value.status == Connecting
      && a5.displayWifiLogo && a5.wifi.value.status == Ready && a5.url == config.url
  {
  }

  /** With a credential missing the fresh instance reports `BrokenConfiguration`, and an upload is skipped. */
  lemma BrokenConfigurationSkipsUpload(app: App, config: Configuration)
    requires config.ssid.None? || config.password.None?
    ensures var a1 := WakeFromReset(app, config).app;
      a1.wifi.Some? && a1.wifi.value.status == BrokenConfiguration && UploadEvent(a1) == AppStep(a1, [])
  {
  }
}

=== FILE: decimal.dfy ===
/**
 Signed decimal text, as `printf`'s `%i` writes it, and the reading of such text back into a
 number.
 */
module Decimal {
  import opened Types

  predicate IsDigit(c: char)
  {
    '0' <= c <= '9'
  }

  predicate AllDigits(s: string)
  {
    forall i :: 0 <= i < |s| ==> IsDigit(s[i])
  }

  function DigitChar(d: nat): (c: char)
    requires d < 10
    ensures IsDigit(c)
  {
    ('0' as int + d) as char
  }

  function DigitValue(c: char): (d: nat)
    requires IsDigit(c)
    ensures d < 10 && DigitChar(d) == c
  {
    c as int - '0' as int
  }

  function Pow10(k: nat): (r: nat)
    ensures r >= 1
  {
    if k == 0 then 1 else 10 * Pow10(k - 1)
  }

  /** The digits of `n`, most significant first, without leading zeros. */
  function NatDigits(n: nat): (r: string)
    ensures |r| >= 1
    ensures AllDigits(r)
    ensures r[0] == '0' ==> n == 0
    decreases n
  {
    if n < 10 then [DigitChar(n)] else NatDigits(n / 10) + [DigitChar(n % 10)]
  }

  /** The number a string of digits denotes. */
  function DigitsValue(s: string): nat
    requires AllDigits(s)
  {
    if |s| == 0 then 0 else 10 * DigitsValue(s[..|s| - 1]) + DigitValue(s[|s| - 1])
  }

  /** Reading the digits of `n` gives `n` back. */
  lemma {:induction false} NatDigitsRoundTrip(n: nat)
    ensures DigitsValue(NatDigits(n)) == n
    decreases n
  {
    var s := NatDigits(n);
    if n >= 10 {
      NatDigitsRoundTrip(n / 10);
      assert s[..|s| - 1] == NatDigits(n / 10);
      assert DigitValue(s[|s| - 1]) == n % 10;
    } else {
      assert s[..0] == [];
    }
  }

  /** A number below `10^k` has at most `k` digits. */
  lemma {:induction false} NatDigitsLength(n: nat, k: nat)
    requires 1 <= k && n < Pow10(k)
    ensures |NatDigits(n)| <= k
    decreases n
  {
    if n >= 10 {
      assert Pow10(1) == 10;
      assert k >= 2;
      assert n / 10 < Pow10(k - 1);
      NatDigitsLength(n / 10, k - 1);
    }
  }

  /** `%i`: a minus sign for a negative number, then the fewest digits of its magnitude (no leading zero). */
  function FormatInt(n: int): (r: string)
    ensures |r| >= 1
    ensures r[0] == '-' <==> n < 0
    ensures n < 0 ==> |r| >= 2
    ensures r[if n < 0 then 1 else 0] == '0' ==> n == 0
    ensures forall i :: 0 <= i < |r| ==> r[i] == '-' || IsDigit(r[i])
    ensures forall i :: 1 <= i < |r| ==> IsDigit(r[i])
  {
    if n < 0 then "-" + NatDigits(-n) else NatDigits(n)
  }

  /** Reads a numeral: an optional minus sign followed by at least one digit. */
  function ParseInt(s: string): Option<int>
  {
    if |s| >= 2 && s[0] == '-' && AllDigits(s[1..]) then Some(0 - DigitsValue(s[1..]) as int)
    else if |s| >= 1 && AllDigits(s) then Some(DigitsValue(s))
    else None
  }

  /** Reading what `%i` wrote gives the number back. */
  lemma FormatIntRoundTrip(n: int)
    ensures ParseInt(FormatInt(n)) == Some(n)
  {
    if n < 0 {
      var d := NatDigits(-n);
      NatDigitsRoundTrip(-n);
      assert FormatInt(n) == "-" + d;
      assert ("-" + d)[1..] == d;
      assert ParseInt("-" + d) == Some(0 - DigitsValue(d) as int);
    } else {
      NatDigitsRoundTrip(n);
      assert FormatInt(n) == NatDigits(n);
    }
  }

  /** A 32-bit signed integer takes at most 11 characters. */
  lemma FormatIntLength32(n: int)
    requires -0x8000_0000 <= n < 0x8000_0000
    ensures |FormatInt(n)| <= 11
  {
    assert Pow10(10) == 10_000_000_000 by {
      assert Pow10(5) == 100_000;
      assert Pow10(10) == Pow10(5) * 100_000 by {
        Pow10Add(5, 5);
      }
    }
    if n < 0 {
      NatDigitsLength(-n, 10);
    } else {
      NatDigitsLength(n, 10);
    }
  }

  lemma {:induction false} Pow10Add(a: nat, b: nat)
    ensures Pow10(a + b) == Pow10(a) * Pow10(b)
    decreases a
  {
    if a > 0 {
      Pow10Add(a - 1, b);
    }
  }
}

=== FILE: font.dfy ===
/**
 The temperature font: which glyph draws a character, and where that glyph starts inside each
 row of the font bitmap.
 */
module Font {

  /** The glyphs of the font bitmap, left to right. */
  const Glyphs: string := "0123456789.-oCF"

  /** Width in bytes of one glyph slice. */
  const GlyphWidth: int := 22

  /** Height in rows of the font bitmap. */
  const GlyphHeight: int := 42

  /** Bytes in one row of the font bitmap. */
  const RowBytes: int := 326

  /**
   `translateCharToFontIndex`: digits map to 0..9, `. - o C F` to 10..14, and every other
   character falls back to glyph 0.
   */
  function FontIndex(c: char): (r: nat)
    ensures r < |Glyphs|
    ensures c in Glyphs ==> Glyphs[r] == c
    ensures c !in Glyphs ==> r == 0
    ensures '0' <= c <= '9' ==> r == c as int - '0' as int
  {
    if '0' <= c <= '9' then c as int - '0' as int
    else match c
      case '.' => 10
      case '-' => 11
      case 'o' => 12
      case 'C' => 13
      case 'F' => 14
      case _ => 0
  }

  /** Each glyph character maps to its own position, so distinct glyph characters get distinct indices. */
  lemma FontIndexInvertsGlyphs()
    ensures forall i :: 0 <= i < |Glyphs| ==> FontIndex(Glyphs[i]) == i
    ensures forall c, d :: c in Glyphs && d in Glyphs && FontIndex(c) == FontIndex(d) ==> c == d
  {
  }

  /**
   The offset `blitChar` computes for glyph `index`: 22 bytes per glyph after a one-byte margin,
   pulled one byte to the left at glyphs 2, 7, 8, 10 and 14.
   */
  function GlyphOffset(index: int): (r: int)
    ensures 0 <= index < |Glyphs| ==> 1 <= r && r + GlyphWidth <= RowBytes
  {
    var offset := 1 + index * GlyphWidth;
    var offset := if index >= 2 then offset - 1 else offset;
    var offset := if index >= 7 then offset - 1 else offset;
    var offset := if index >= 8 then offset - 1 else offset;
    var offset := if index >= 10 then offset - 1 else offset;
    if index >= 14 then offset - 1 else offset
  }

  /** Glyph slices start in strictly increasing order, each 21 or 22 bytes after the previous one, and the last ends exactly at the row's end. */
  lemma GlyphOffsetsIncrease()
    ensures forall i, j :: 0 <= i < j < |Glyphs| ==> GlyphOffset(i) < GlyphOffset(j)
    ensures forall i :: 0 <= i < |Glyphs| - 1 ==>
      GlyphWidth - 1 <= GlyphOffset(i + 1) - GlyphOffset(i) <= GlyphWidth
    ensures GlyphOffset(|Glyphs| - 1) + GlyphWidth == RowBytes
  {
  }

  /**
   Every byte `blitChar` reads for any character lies in the font bitmap and in the row of the
   line being drawn.
   */
  lemma GlyphBytesStayInRow(c: char, line: int, k: int)
    requires 0 <= line < GlyphHeight && 0 <= k < GlyphWidth
    ensures var b := line * RowBytes + GlyphOffset(FontIndex(c)) + k;
      && line * RowBytes <= b < (line + 1) * RowBytes
      && 0 <= b < GlyphHeight * RowBytes
  {
  }
}

=== FILE: temperature_format.dfy ===
/**
 The text drawn for a temperature: `formatTemperature(whole, decimals, unit)` writes the whole
 degrees, a point, the hundredths, a degree mark `o` and the unit letter.

 The firmware pads a one-digit hundredths value with a zero AFTER the digit (`"%i.%i0o%c"`), so
 5 hundredths reads as 50. `FormatTemperature` models that code as written;
 `FormatTemperatureIntended` pads in front (`"%i.%02io%c"`) and reads back exactly.
 */
module TemperatureFormat {
  import opened Types
  import opened Decimal
  import opened Font

  /** `formatTemperature` as the firmware writes it. */
  function FormatTemperature(whole: int, decimals: int, unit: char): string
  {
    FormatInt(whole) + "." + FormatInt(decimals) + (if decimals < 10 then "0" else "") + "o" + [unit]
  }

  /** The hundredths field with a leading zero when it has one digit, as `%02i` writes it. */
  function Pad2(decimals: int): string
  {
    if 0 <= decimals < 10 then "0" + FormatInt(decimals) else FormatInt(decimals)
  }

  /** `formatTemperature` with the hundredths zero-padded in front. */
  function FormatTemperatureIntended(whole: int, decimals: int, unit: char): string
  {
    FormatInt(whole) + "." + Pad2(decimals) + "o" + [unit]
  }

  /** What a reader takes from the display: whole degrees, hundredths and unit. */
  datatype Reading = Reading(whole: int, hundredths: nat, unit: char)

  /** The position of the first `c` in `s`, or `|s|` when there is none. */
  function FirstIndex(s: string, c: char): (i: nat)
    ensures i <= |s|
    ensures i < |s| ==> s[i] == c
    ensures forall j :: 0 <= j < i ==> s[j] != c
  {
    if |s| == 0 then 0 else if s[0] == c then 0 else 1 + FirstIndex(s[1..], c)
  }

  /**
   Reads a displayed temperature: a numeral, a point, exactly two digits of hundredths, `o`, and
   the unit letter.
   */
  function ParseTemperature(s: string): Option<Reading>
  {
    var i := FirstIndex(s, '.');
    if i + 5 != |s| || s[|s| - 2] != 'o' then None
    else
      var field := s[i + 1..i + 3];
      match ParseInt(s[..i])
      case None => None
      case Some(whole) =>
        if AllDigits(field) then Some(Reading(whole, DigitsValue(field), s[|s| - 1])) else None
  }

  /** A text of the displayed shape reads back as its parts. */
  lemma ParseShape(whole: int, field: string, unit: char)
    requires |field| == 2 && AllDigits(field)
    ensures ParseTemperature(FormatInt(whole) + "." + field + "o" + [unit])
      == Some(Reading(whole, DigitsValue(field), unit))
  {
    FormatIntRoundTrip(whole);
    assert FormatInt(whole) + "." + field + "o" + [unit] == FormatInt(whole) + ['.', field[0], field[1], 'o', unit];
    assert field == [field[0], field[1]];
    ParseNumeralThenTail(FormatInt(whole), whole, field[0], field[1], unit);
  }

  /** A numeral without a point, followed by the point, two digits, `o` and a unit, reads back as its parts. */
  lemma ParseNumeralThenTail(w: string, whole: int, d0: char, d1: char, unit: char)
    requires ParseInt(w) == Some(whole) && '.' !in w
    requires IsDigit(d0) && IsDigit(d1)
    ensures ParseTemperature(w + ['.', d0, d1, 'o', unit]) == Some(Reading(whole, DigitsValue([d0, d1]), unit))
  {
    var s := w + ['.', d0, d1, 'o', unit];
    assert s[|w|] == '.';
    var i := FirstIndex(s, '.');
    assert i == |w|;
    assert s[..i] == w;
    assert s[i + 1..i + 3] == [d0, d1];
  }

  /** One digit: its value. */
  lemma OneDigitValue(d: nat)
    requires d < 10
    ensures FormatInt(d) == [DigitChar(d)]
    ensures DigitsValue([DigitChar(d)]) == d
  {
    assert [DigitChar(d)][..0] == [];
  }

  /** Hundredths of 10..99 are written as exactly two digits. */
  lemma TwoDigits(d: nat)
    requires 10 <= d < 100
    ensures |FormatInt(d)| == 2 && AllDigits(FormatInt(d))
    ensures DigitsValue(FormatInt(d)) == d
  {
    assert Pow10(2) == 100;
    NatDigitsLength(d, 2);
    NatDigitsRoundTrip(d);
  }

  /**
   As written, hundredths 0..9 are displayed as ten times their value: the reading of the text
   is `10 * decimals` for one-digit hundredths and `decimals` otherwise.
   */
  lemma AsWrittenReading(whole: int, decimals: int, unit: char)
    requires 0 <= decimals < 100
    ensures ParseTemperature(FormatTemperature(whole, decimals, unit))
      == Some(Reading(whole, if decimals < 10 then 10 * decimals else decimals, unit))
  {
    var field := FormatInt(decimals) + (if decimals < 10 then "0" else "");
    assert FormatTemperature(whole, decimals, unit) == FormatInt(whole) + "." + field + "o" + [unit];
    if decimals < 10 {
      OneDigitValue(decimals);
      assert field == [DigitChar(decimals), '0'];
      assert field[..1] == [DigitChar(decimals)];
    } else {
      TwoDigits(decimals);
      assert field == FormatInt(decimals);
    }
    ParseShape(whole, field, unit);
  }

  /** 20.05 degrees and 20.50 degrees are drawn as the same text, "20.50oC". */
  lemma AsWrittenCollides()
    ensures FormatTemperature(20, 5, 'C') == "20.50oC"
    ensures FormatTemperature(20, 50, 'C') == "20.50oC"
  {
  }

  /** With the padding in front, the display reads back exactly what was formatted. */
  lemma IntendedReading(whole: int, decimals: int, unit: char)
    requires 0 <= decimals < 100
    ensures ParseTemperature(FormatTemperatureIntended(whole, decimals, unit))
      == Some(Reading(whole, decimals, unit))
  {
    var field := Pad2(decimals);
    if decimals < 10 {
      OneDigitValue(decimals);
      assert field == ['0', DigitChar(decimals)];
      assert AllDigits(field);
      assert field[..1] == ['0'];
      assert DigitsValue(field[..1]) == 0 by {
        assert field[..1][..0] == [];
      }
    } else {
      TwoDigits(decimals);
    }
    ParseShape(whole, field, unit);
  }

  /** Different readings are never drawn as the same text once the padding is in front. */
  lemma IntendedInjective(w1: int, d1: int, u1: char, w2: int, d2: int, u2: char)
    requires 0 <= d1 < 100 && 0 <= d2 < 100
    requires FormatTemperatureIntended(w1, d1, u1) == FormatTemperatureIntended(w2, d2, u2)
    ensures w1 == w2 && d1 == d2 && u1 == u2
  {
    IntendedReading(w1, d1, u1);
    IntendedReading(w2, d2, u2);
  }

  /** Every character of `s` is a glyph of the font. */
  predicate AllGlyphs(s: string)
  {
    forall i :: 0 <= i < |s| ==> s[i] in Glyphs
  }

  /** Joining texts made of glyphs gives a text made of glyphs. */
  lemma AllGlyphsConcat(a: string, b: string)
    requires AllGlyphs(a) && AllGlyphs(b)
    ensures AllGlyphs(a + b)
  {
    forall i | 0 <= i < |a + b|
      ensures (a + b)[i] in Glyphs
    {
      if i >= |a| {
        assert (a + b)[i] == b[i - |a|];
      }
    }
  }

  /** A text made of glyphs is drawn character for character by `translateCharToFontIndex`. */
  lemma AllGlyphsDrawnAsThemselves(s: string)
    requires AllGlyphs(s)
    ensures forall i :: 0 <= i < |s| ==> s[i] in Glyphs && Glyphs[FontIndex(s[i])] == s[i]
  {
  }

  /** Every character of `FormatInt`'s output is a glyph of the font. */
  lemma FormatIntRenderable(n: int)
    ensures AllGlyphs(FormatInt(n))
  {
    var s := FormatInt(n);
    forall i | 0 <= i < |s|
      ensures s[i] in Glyphs
    {
      if s[i] == '-' {
        assert Glyphs[11] == '-';
      } else {
        assert Glyphs[DigitValue(s[i])] == s[i];
      }
    }
  }

  /** The point, the padding zero, the degree mark and the two unit letters are glyphs. */
  lemma MarksRenderable(unit: char)
    requires unit == 'C' || unit == 'F'
    ensures AllGlyphs(".") && AllGlyphs("0") && AllGlyphs("") && AllGlyphs("o" + [unit])
  {
    assert Glyphs[10] == '.' && Glyphs[0] == '0' && Glyphs[12] == 'o';
    assert Glyphs[13] == 'C' && Glyphs[14] == 'F';
    assert ("o" + [unit])[1] == unit;
  }

  /**
   For a Celsius or Fahrenheit unit, every character the firmware draws has its own glyph, so
   `translateCharToFontIndex` never falls back to glyph 0 for it.
   */
  lemma FormatTemperatureRenderable(whole: int, decimals: int, unit: char)
    requires unit == 'C' || unit == 'F'
    ensures var s := FormatTemperature(whole, decimals, unit);
      forall i :: 0 <= i < |s| ==> s[i] in Glyphs && Glyphs[FontIndex(s[i])] == s[i]
  {
    var a := FormatInt(whole);
    var b := FormatInt(decimals);
    var z := if decimals < 10 then "0" else "";
    FormatIntRenderable(whole);
    FormatIntRenderable(decimals);
    MarksRenderable(unit);
    AllGlyphsConcat(a, ".");
    AllGlyphsConcat(a + ".", b);
    AllGlyphsConcat(a + "." + b, z);
    AllGlyphsConcat(a + "." + b + z, "o" + [unit]);
    assert FormatTemperature(whole, decimals, unit) == a + "." + b + z + ("o" + [unit]);
    AllGlyphsDrawnAsThemselves(FormatTemperature(whole, decimals, unit));
  }

  /** The corrected text is drawn entirely from the font's glyphs as well. */
  lemma IntendedRenderable(whole: int, decimals: int, unit: char)
    requires unit == 'C' || unit == 'F'
    ensures var s := FormatTemperatureIntended(whole, decimals, unit);
      forall i :: 0 <= i < |s| ==> s[i] in Glyphs && Glyphs[FontIndex(s[i])] == s[i]
  {
    var a := FormatInt(whole);
    var b := FormatInt(decimals);
    FormatIntRenderable(whole);
    FormatIntRenderable(decimals);
    MarksRenderable(unit);
    AllGlyphsConcat("0", b);
    assert AllGlyphs(Pad2(decimals));
    AllGlyphsConcat(a, ".");
    AllGlyphsConcat(a + ".", Pad2(decimals));
    AllGlyphsConcat(a + "." + Pad2(decimals), "o" + [unit]);
    assert FormatTemperatureIntended(whole, decimals, unit) == a + "." + Pad2(decimals) + ("o" + [unit]);
    AllGlyphsDrawnAsThemselves(FormatTemperatureIntended(whole, decimals, unit));
  }

  /**
   For a 32-bit whole part and hundredths 0..99 the text takes at most 19 characters, so it and
   its terminating zero fit the firmware's 20-character array.
   */
  lemma FormatTemperatureFits(whole: int, decimals: int, unit: char)
    requires -0x8000_0000 <= whole < 0x8000_0000
    requires 0 <= decimals < 100
    ensures |FormatTemperature(whole, decimals, unit)| <= 19
    ensures |FormatTemperatureIntended(whole, decimals, unit)| <= 19
  {
    FormatIntLength32(whole);
    if decimals < 10 {
      OneDigitValue(decimals);
    } else {
      TwoDigits(decimals);
    }
  }
}

=== FILE: types.dfy ===
/** Basic value types shared by the model: bytes and optional values. */
module Types {

  /** An unsigned 8-bit value, as `uint8_t` in the firmware. */
  newtype byte = x: int | 0 <= x < 256

  /** The contents of a byte buffer. */
  type Bytes = seq<byte>

  /** A value that may be absent; `None` stands for a null pointer or a missing entry. */
  datatype Option<+T> = None | Some(value: T)
}

=== FILE: wifi.dfy ===
/**
 The `Wifi` connection and request manager as a pure state machine.

 Every operation and every event the radio or the HTTP client delivers is a function from the
 current state to the next state plus a trace: the observable effects of the step, in the order
 they happen. A handler call in the trace records what the handler slot held at the time (an
 empty slot is a null function pointer) and `visible`, the status `status()` would return from
 inside the handler; that is how the order of "update the status" and "notify" is stated.
 */
module Wifi {
  import opened Types
  import opened WifiStatus

  /** A member function attached to a handler slot, identified by its qualified name (`Class::member`). */
  datatype Handler = Handler(name: string)

  type Url = string

  /** An observable effect of a step. */
  datatype Event =
    | RadioInitialised
    | RadioJoined(ssid: Bytes, password: Bytes)
    | ReadyCallbackRegistered
    | ClientOpened(url: Url)
    | StatusCalled(slot: Option<Handler>, arg: Status, visible: Status)
    | ReceivedCalled(slot: Option<Handler>, buffer: Option<Bytes>, visible: Status)
    | ConnectCalled(slot: Option<Handler>, visible: Status)

  /**
   The fields of a `Wifi` object that the logic reads or writes. `buffer` is the caller's byte
   buffer (`None` for a null pointer) together with its contents; `client` is the URL of the
   last HTTP client created (`None` for the default-constructed one).
   */
  datatype WifiState = WifiState(
    status: Status,
    buffer: Option<Bytes>,
    ssid: Bytes,
    password: Bytes,
    client: Option<Url>,
    receivedHandler: Option<Handler>,
    statusHandler: Option<Handler>,
    connectHandler: Option<Handler>)

  /** The outcome of an event: the next state and what happened, in order. */
  datatype Step = Step(state: WifiState, trace: seq<Event>)

  /** The outcome of a call that returns a status. */
  datatype Reply = Reply(ret: Status, state: WifiState, trace: seq<Event>)

  /** True when the trace calls no handler of the caller. */
  predicate NoHandlerCalls(trace: seq<Event>)
  {
    forall i :: 0 <= i < |trace| ==>
      !trace[i].StatusCalled? && !trace[i].ReceivedCalled? && !trace[i].ConnectCalled?
  }

  /** How many times the trace initialises the radio module. */
  function RadioInits(trace: seq<Event>): nat
  {
    if |trace| == 0 then 0
    else (if trace[0].RadioInitialised? then 1 else 0) + RadioInits(trace[1..])
  }

  /** A handler slot after an optional attachment: a null pointer keeps the previous handler. */
  function Attach(slot: Option<Handler>, handler: Option<Handler>): (r: Option<Handler>)
    ensures handler.Some? ==> r == handler
    ensures handler.None? ==> r == slot
  {
    if handler.Some? then handler else slot
  }

  /** A freshly constructed `Wifi`: not connected, no buffer, no handlers attached. */
  function NewWifi(): (w: WifiState)
    ensures w.status == NotConnected
    ensures w.buffer.None? && w.client.None?
    ensures w.receivedHandler.None? && w.statusHandler.None? && w.connectHandler.None?
  {
    WifiState(NotConnected, None, [], [], None, None, None, None)
  }

  /**
   `startConnection`: reads the SSID and password from the configuration (`None` when a key is
   missing). Missing credentials fail synchronously without touching the radio; otherwise the
   radio is initialised once, told to join, and the ready callback is registered.
   */
  function StartConnection(w: WifiState, ssid: Option<Bytes>, password: Option<Bytes>): (r: Reply)
    ensures r.ret == r.state.status
    ensures r.ret == BrokenConfiguration <==> ssid.None? || password.None?
    ensures r.ret == Connecting <==> ssid.Some? && password.Some?
    ensures NoHandlerCalls(r.trace)
    ensures RadioInits(r.trace) == if r.ret == Connecting then 1 else 0
    ensures r.ret == BrokenConfiguration ==> r.trace == [] && r.state == w.(status := BrokenConfiguration)
    ensures r.ret == Connecting ==>
      && r.state == w.(status := Connecting, ssid := ssid.value, password := password.value)
      && r.trace[|r.trace| - 1] == ReadyCallbackRegistered
      && RadioJoined(ssid.value, password.value) in r.trace
  {
    if ssid.None? || password.None? then
      Reply(BrokenConfiguration, w.(status := BrokenConfiguration), [])
    else
      var trace := [RadioInitialised, RadioJoined(ssid.value, password.value), ReadyCallbackRegistered];
      assert RadioInits(trace[1..]) == 0 by {
        assert RadioInits(trace[2..]) == RadioInits(trace[2..][1..]);
        assert trace[2..][1..] == [];
      }
      Reply(Connecting, w.(status := Connecting, ssid := ssid.value, password := password.value), trace)
  }

  /** `connect`: attaches the ready handler, then returns whatever `startConnection` returns. */
  function Connect(w: WifiState, handler: Handler, ssid: Option<Bytes>, password: Option<Bytes>): (r: Reply)
    ensures r.state.connectHandler == Some(handler)
    ensures r == StartConnection(w.(connectHandler := Some(handler)), ssid, password)
  {
    StartConnection(w.(connectHandler := Some(handler)), ssid, password)
  }

  /**
   One statement of an event handler's body. `CallStatus(None)` passes the status current at
   the call, `CallStatus(Some(s))` passes `s`; `AddChunk` adds to the buffer only when it is
   non-null.
   */
  datatype Stmt =
    | SetStatus(status: Status)
    | AddChunk(chunk: Bytes)
    | CallStatus(arg: Option<Status>)
    | CallReceived
    | CallConnect

  /** One statement: an assignment changes the state, a call records what the handler sees at that moment. */
  function ExecOne(w: WifiState, s: Stmt): (r: Step)
    ensures r.state == w.(status := r.state.status, buffer := r.state.buffer)
    ensures |r.trace| <= 1
    ensures forall e :: e in r.trace ==>
      (e.StatusCalled? || e.ReceivedCalled? || e.ConnectCalled?) && e.visible == w.status
  {
    match s
    case SetStatus(st) => Step(w.(status := st), [])
    case AddChunk(chunk) => Step(w.(buffer := Append(w.buffer, chunk)), [])
    case CallStatus(arg) =>
      Step(w, [StatusCalled(w.statusHandler, if arg.Some? then arg.value else w.status, w.status)])
    case CallReceived => Step(w, [ReceivedCalled(w.receivedHandler, w.buffer, w.status)])
    case CallConnect => Step(w, [ConnectCalled(w.connectHandler, w.status)])
  }

  /**
   A handler body run statement by statement: each call records the status stored at that
   point, so the order of assignments and calls in the body decides what a handler sees.
   Only the status and the buffer are ever written.
   */
  function Exec(w: WifiState, body: seq<Stmt>): (r: Step)
    ensures r.state == w.(status := r.state.status, buffer := r.state.buffer)
    ensures |r.trace| <= |body|
    decreases |body|
  {
    if |body| == 0 then Step(w, [])
    else
      var first := ExecOne(w, body[0]);
      var rest := Exec(first.state, body[1..]);
      Step(rest.state, first.trace + rest.trace)
  }

  /** `networkReadyHandler`: the radio joined; the status is `Ready` before the ready handler runs. */
  function NetworkReady(w: WifiState): (r: Step)
    ensures r.state.status == Ready
    ensures r.state == w.(status := Ready)
    ensures r.trace == [ConnectCalled(w.connectHandler, Ready)]
  {
    var body := [SetStatus(Ready), CallConnect];
    assert body[1..][1..] == [];
    Exec(w, body)
  }

  /** Swapping the two statements of `networkReadyHandler` would let the ready handler see the old status. */
  lemma NetworkReadyOrderMatters(w: WifiState)
    requires w.status != Ready
    ensures Exec(w, [CallConnect, SetStatus(Ready)]).trace == [ConnectCalled(w.connectHandler, w.status)]
    ensures Exec(w, [CallConnect, SetStatus(Ready)]) != NetworkReady(w)
  {
    var body := [CallConnect, SetStatus(Ready)];
    assert body[1..][1..] == [];
    assert Exec(w, body).trace[0] != NetworkReady(w).trace[0];
  }

  /**
   `startRequest`: replaces the HTTP client by one for `url` (destroying the previous one does
   nothing) and starts receiving.
   */
  function StartRequest(w: WifiState, url: Url): (r: Reply)
    ensures r.ret == Receiving && r.state.status == Receiving
    ensures r.state == w.(status := Receiving, client := Some(url))
    ensures r.trace == [ClientOpened(url)]
  {
    Reply(Receiving, w.(status := Receiving, client := Some(url)), [ClientOpened(url)])
  }

  /**
   `get`: a non-null change handler is attached first. Unless the status is `Ready`, the change
   handler is told the current status and `NotReady` is returned; otherwise the buffer is taken,
   a non-null document handler attached, and the request started.
   */
  function Get(w: WifiState, url: Url, buffer: Option<Bytes>,
               documentHandler: Option<Handler>, changeHandler: Option<Handler>): (r: Reply)
    ensures r.state.statusHandler == Attach(w.statusHandler, changeHandler)
    ensures r.ret == NotReady <==> w.status != Ready
    ensures w.status != Ready ==>
      && r.state == w.(statusHandler := r.state.statusHandler)
      && r.trace == [StatusCalled(r.state.statusHandler, w.status, w.status)]
    ensures w.status == Ready ==>
      && r.ret == Receiving
      && r.state.status == Receiving
      && r.state.buffer == buffer
      && r.state.receivedHandler == Attach(w.receivedHandler, documentHandler)
      && r.state.client == Some(url)
      && r.state.connectHandler == w.connectHandler
      && r.state.ssid == w.ssid && r.state.password == w.password
      && r.trace == [ClientOpened(url)]
  {
    var w1 := w.(statusHandler := Attach(w.statusHandler, changeHandler));
    if w1.status != Ready then
      Reply(NotReady, w1, [StatusCalled(w1.statusHandler, w1.status, w1.status)])
    else
      var w2 := w1.(buffer := buffer, receivedHandler := Attach(w1.receivedHandler, documentHandler));
      StartRequest(w2, url)
  }

  /**
   `errorCallback`: the change handler is told `BrokenReply` while the status is still the old
   one, and only then does the status return to `Ready`; the document handler is not called.
   */
  function ErrorCallback(w: WifiState): (r: Step)
    ensures r.state.status == Ready
    ensures r.state == w.(status := Ready)
    ensures r.trace == [StatusCalled(w.statusHandler, BrokenReply, w.status)]
  {
    var body := [CallStatus(Some(BrokenReply)), SetStatus(Ready)];
    assert body[1..][1..] == [];
    Exec(w, body)
  }

  /** The buffer after `chunk` is added to it; a null buffer stays null. */
  function Append(buffer: Option<Bytes>, chunk: Bytes): (r: Option<Bytes>)
    ensures r.Some? <==> buffer.Some?
    ensures buffer.Some? ==>
      && |r.value| == |buffer.value| + |chunk|
      && r.value[..|buffer.value|] == buffer.value
      && r.value[|buffer.value|..] == chunk
  {
    if buffer.Some? then Some(buffer.value + chunk) else None
  }

  /**
   `httpHandleData`: a chunk of the response body. On a failed request context nothing happens
   (the error callback reports the failure). Otherwise the chunk is added to the buffer; a final
   chunk sets `Ready`, then tells the change handler `Ready`, then hands the buffer to the
   document handler; any other chunk tells the change handler the unchanged status.
   */
  function HttpHandleData(w: WifiState, failed: bool, chunk: Bytes, finished: bool): (r: Step)
    ensures failed ==> r == Step(w, [])
    ensures !failed ==> r.state.buffer == Append(w.buffer, chunk)
    ensures !failed && finished ==>
      && r.state == w.(status := Ready, buffer := Append(w.buffer, chunk))
      && r.trace == [StatusCalled(w.statusHandler, Ready, Ready),
                     ReceivedCalled(w.receivedHandler, r.state.buffer, Ready)]
    ensures !failed && !finished ==>
      && r.state == w.(buffer := Append(w.buffer, chunk))
      && r.trace == [StatusCalled(w.statusHandler, w.status, w.status)]
  {
    if failed then
      Step(w, [])
    else if finished then
      var w1 := w.(buffer := Append(w.buffer, chunk));
      var w2 := w1.(status := Ready);
      var calls := [StatusCalled(w2.statusHandler, Ready, Ready), ReceivedCalled(w2.receivedHandler, w2.buffer, Ready)];
      assert Exec(w2, [CallReceived]) == Step(w2, calls[1..]);
      assert Exec(w2, [CallStatus(None), CallReceived]) == Step(w2, calls);
      assert Exec(w1, [SetStatus(Ready), CallStatus(None), CallReceived]) == Step(w2, calls);
      Exec(w, [AddChunk(chunk), SetStatus(Ready), CallStatus(None), CallReceived])
    else
      var w1 := w.(buffer := Append(w.buffer, chunk));
      assert Exec(w1, [CallStatus(None)]) == Step(w1, [StatusCalled(w1.statusHandler, w1.status, w1.status)]);
      Exec(w, [AddChunk(chunk), CallStatus(None)])
  }
}

=== FILE: wifi_runs.dfy ===
/**
 Sequences of calls and events applied to a `Wifi`, and the properties that hold along them:
 which statuses can be stored, the order of status updates and notifications, and how the
 chunks of a response accumulate in the caller's buffer.
 */
module WifiRuns {
  import opened Types
  import opened WifiStatus
  import opened Wifi

  /** One call made on the `Wifi` or one event delivered to it by the radio or the HTTP client. */
  datatype Input =
    | ConnectIn(handler: Handler, ssid: Option<Bytes>, password: Option<Bytes>)
    | NetworkReadyIn
    | GetIn(url: Url, buffer: Option<Bytes>, documentHandler: Option<Handler>, changeHandler: Option<Handler>)
    | DataIn(failed: bool, chunk: Bytes, finished: bool)
    | ErrorIn

  /** The effect of one input. */
  function Apply(w: WifiState, input: Input): Step
  {
    match input
    case ConnectIn(h, ssid, password) =>
      var r := Connect(w, h, ssid, password); Step(r.state, r.trace)
    case NetworkReadyIn => NetworkReady(w)
    case GetIn(url, buffer, dh, ch) =>
      var r := Get(w, url, buffer, dh, ch); Step(r.state, r.trace)
    case DataIn(failed, chunk, finished) => HttpHandleData(w, failed, chunk, finished)
    case ErrorIn => ErrorCallback(w)
  }

  /** The inputs applied in order; the traces are concatenated in the same order. */
  function Run(w: WifiState, inputs: seq<Input>): Step
    decreases |inputs|
  {
    if |inputs| == 0 then Step(w, [])
    else
      var first := Apply(w, inputs[0]);
      var rest := Run(first.state, inputs[1..]);
      Step(rest.state, first.trace + rest.trace)
  }

  /** Running two input sequences one after the other is running their concatenation. */
  lemma {:induction false} RunConcat(w: WifiState, a: seq<Input>, b: seq<Input>)
    ensures Run(w, a + b).state == Run(Run(w, a).state, b).state
    ensures Run(w, a + b).trace == Run(w, a).trace + Run(Run(w, a).state, b).trace
    decreases |a|
  {
    if |a| > 0 {
      var first := Apply(w, a[0]);
      assert (a + b)[0] == a[0];
      assert (a + b)[1..] == a[1..] + b;
      RunConcat(first.state, a[1..], b);
      assert Run(w, a + b) == Step(Run(first.state, a[1..] + b).state, first.trace + Run(first.state, a[1..] + b).trace);
      assert Run(w, a) == Step(Run(first.state, a[1..]).state, first.trace + Run(first.state, a[1..]).trace);
    } else {
      assert a + b == b;
    }
  }

  /**
   The statuses a `Wifi` ever stores. `NotReady` is only returned by `get`, `BrokenReply` only
   passed to the change handler, and no code path produces `BrokenUrl`.
   */
  predicate Stored(s: Status)
  {
    s in {NotConnected, BrokenConfiguration, Connecting, Ready, Receiving}
  }

  /** Every input keeps the stored status among the storable ones. */
  lemma ApplyKeepsStored(w: WifiState, input: Input)
    requires Stored(w.status)
    ensures Stored(Apply(w, input).state.status)
  {
  }

  /** Along any run from a storable status, the status stays storable. */
  lemma {:induction false} RunKeepsStored(w: WifiState, inputs: seq<Input>)
    requires Stored(w.status)
    ensures Stored(Run(w, inputs).state.status)
    decreases |inputs|
  {
    if |inputs| > 0 {
      ApplyKeepsStored(w, inputs[0]);
      RunKeepsStored(Apply(w, inputs[0]).state, inputs[1..]);
    }
  }

  /** A `Wifi` built by the constructor never stores `NotReady`, `BrokenUrl` or `BrokenReply`. */
  lemma NeverStoresRejectionOrError(inputs: seq<Input>)
    ensures Run(NewWifi(), inputs).state.status !in {NotReady, BrokenUrl, BrokenReply}
  {
    RunKeepsStored(NewWifi(), inputs);
  }

  /**
   The ready handler and the document handler only ever run once the status is `Ready`, so a
   handler that asks for `status()` sees `Ready`.
   */
  predicate ReadyBeforeCompletion(trace: seq<Event>)
  {
    forall i :: 0 <= i < |trace| && (trace[i].ConnectCalled? || trace[i].ReceivedCalled?) ==>
      trace[i].visible == Ready
  }

  /** A single input calls the ready and document handlers only with `Ready` visible. */
  lemma ApplyReadyBeforeCompletion(w: WifiState, input: Input)
    ensures ReadyBeforeCompletion(Apply(w, input).trace)
  {
    match input
    case ConnectIn(h, ssid, password) =>
      assert NoHandlerCalls(Connect(w, h, ssid, password).trace);
    case NetworkReadyIn =>
    case GetIn(url, buffer, dh, ch) =>
    case DataIn(failed, chunk, finished) =>
    case ErrorIn =>
  }

  /** Every run, from any state, calls the ready and document handlers only with `Ready` visible. */
  lemma {:induction false} RunReadyBeforeCompletion(w: WifiState, inputs: seq<Input>)
    ensures ReadyBeforeCompletion(Run(w, inputs).trace)
    decreases |inputs|
  {
    if |inputs| > 0 {
      var first := Apply(w, inputs[0]);
      var rest := Run(first.state, inputs[1..]);
      ApplyReadyBeforeCompletion(w, inputs[0]);
      RunReadyBeforeCompletion(first.state, inputs[1..]);
      ReadyBeforeCompletionConcat(first.trace, rest.trace);
    }
  }

  /** Two traces that call the ready and document handlers only with `Ready` visible still do so joined. */
  lemma ReadyBeforeCompletionConcat(a: seq<Event>, b: seq<Event>)
    requires ReadyBeforeCompletion(a) && ReadyBeforeCompletion(b)
    ensures ReadyBeforeCompletion(a + b)
  {
    forall i | 0 <= i < |a + b| && ((a + b)[i].ConnectCalled? || (a + b)[i].ReceivedCalled?)
      ensures (a + b)[i].visible == Ready
    {
      if i >= |a| {
        assert (a + b)[i] == b[i - |a|];
      }
    }
  }

  /** The body chunks `cs` delivered in order, none of them final, on a request that has not failed. */
  function Chunks(cs: seq<Bytes>): (r: seq<Input>)
    ensures |r| == |cs|
    ensures forall i :: 0 <= i < |cs| ==> r[i] == DataIn(false, cs[i], false)
  {
    seq(|cs|, i requires 0 <= i < |cs| => DataIn(false, cs[i], false))
  }

  /** The chunks joined in arrival order. */
  function Concat(cs: seq<Bytes>): Bytes
  {
    if |cs| == 0 then [] else cs[0] + Concat(cs[1..])
  }

  /** A buffer after each chunk of `cs` has been added to it in order. */
  function AppendAll(buffer: Option<Bytes>, cs: seq<Bytes>): (r: Option<Bytes>)
    ensures r.Some? <==> buffer.Some?
  {
    if buffer.Some? then Some(buffer.value + Concat(cs)) else None
  }

  /**
   A run of non-final chunks leaves the buffer holding its old contents followed by the chunks
   in arrival order, changes nothing else, and tells the change handler the unchanged status
   once per chunk.
   */
  lemma {:induction false} ChunksAccumulate(w: WifiState, cs: seq<Bytes>)
    ensures Run(w, Chunks(cs)).state == w.(buffer := AppendAll(w.buffer, cs))
    ensures Run(w, Chunks(cs)).trace == seq(|cs|, i => StatusCalled(w.statusHandler, w.status, w.status))
    decreases |cs|
  {
    if |cs| == 0 {
      assert AppendAll(w.buffer, cs) == w.buffer by {
        if w.buffer.Some? {
          assert w.buffer.value + [] == w.buffer.value;
        }
      }
    } else {
      var first := Apply(w, DataIn(false, cs[0], false));
      ChunkStep(w, cs[0]);
      assert Chunks(cs)[0] == DataIn(false, cs[0], false);
      assert Chunks(cs)[1..] == Chunks(cs[1..]);
      ChunksAccumulate(first.state, cs[1..]);
      if w.buffer.Some? {
        assert w.buffer.value + cs[0] + Concat(cs[1..]) == w.buffer.value + Concat(cs);
      }
      var rest := Run(first.state, Chunks(cs[1..]));
      assert first.trace + rest.trace == seq(|cs|, i => StatusCalled(w.statusHandler, w.status, w.status));
    }
  }

  /** One non-final chunk on a request that has not failed. */
  lemma ChunkStep(w: WifiState, chunk: Bytes)
    ensures Apply(w, DataIn(false, chunk, false))
      == Step(w.(buffer := Append(w.buffer, chunk)), [StatusCalled(w.statusHandler, w.status, w.status)])
  {
    var r := HttpHandleData(w, false, chunk, false);
    assert r.state == w.(buffer := Append(w.buffer, chunk));
  }

  /**
   A successful response: after the non-final chunks `cs` and the final chunk `last`, the buffer
   holds its old contents followed by every chunk in order and the status is `Ready`. Each
   non-final chunk tells the change handler the unchanged status; then the change handler is
   told `Ready` and the document handler gets the buffer, both seeing `Ready`. The document
   handler is therefore called exactly once, last.
   */
  lemma SuccessfulResponse(w: WifiState, cs: seq<Bytes>, last: Bytes)
    ensures var r := Run(w, Chunks(cs) + [DataIn(false, last, true)]);
      && r.state == w.(status := Ready, buffer := AppendAll(w.buffer, cs + [last]))
      && |r.trace| == |cs| + 2
      && r.trace[..|cs|] == seq(|cs|, i => StatusCalled(w.statusHandler, w.status, w.status))
      && r.trace[|cs|..] == [StatusCalled(w.statusHandler, Ready, Ready),
                             ReceivedCalled(w.receivedHandler, r.state.buffer, Ready)]
  {
    var mid := Run(w, Chunks(cs));
    RunConcat(w, Chunks(cs), [DataIn(false, last, true)]);
    ChunksAccumulate(w, cs);
    var fin := Run(mid.state, [DataIn(false, last, true)]);
    FinalChunk(mid.state, last);
    AppendAllSnoc(w.buffer, cs, last);
    assert fin.state == w.(status := Ready, buffer := AppendAll(w.buffer, cs + [last]));
    assert |mid.trace| == |cs|;
    assert (mid.trace + fin.trace)[|cs|..] == fin.trace;
    assert (mid.trace + fin.trace)[..|cs|] == mid.trace;
  }

  /** The final chunk on its own: buffer extended, `Ready` set, then the two notifications. */
  lemma FinalChunk(m: WifiState, last: Bytes)
    ensures Run(m, [DataIn(false, last, true)]).state == m.(status := Ready, buffer := Append(m.buffer, last))
    ensures Run(m, [DataIn(false, last, true)]).trace
      == [StatusCalled(m.statusHandler, Ready, Ready), ReceivedCalled(m.receivedHandler, Append(m.buffer, last), Ready)]
  {
    var inputs := [DataIn(false, last, true)];
    var first := HttpHandleData(m, false, last, true);
    assert inputs[0] == DataIn(false, last, true) && inputs[1..] == [];
    assert Run(m, inputs) == Step(first.state, first.trace + []);
  }

  /** Adding one more chunk after the others extends the accumulated buffer by that chunk. */
  lemma AppendAllSnoc(buffer: Option<Bytes>, cs: seq<Bytes>, last: Bytes)
    ensures Append(AppendAll(buffer, cs), last) == AppendAll(buffer, cs + [last])
  {
    ConcatSnoc(cs, last);
    if buffer.Some? {
      assert buffer.value + Concat(cs) + last == buffer.value + (Concat(cs) + last);
    }
  }

  /** Joining one more chunk adds its bytes at the end. */
  lemma {:induction false} ConcatSnoc(cs: seq<Bytes>, last: Bytes)
    ensures Concat(cs + [last]) == Concat(cs) + last
    decreases |cs|
  {
    if |cs| == 0 {
      assert cs + [last] == [last];
      assert Concat([last][1..]) == [];
    } else {
      assert (cs + [last])[0] == cs[0];
      assert (cs + [last])[1..] == cs[1..] + [last];
      ConcatSnoc(cs[1..], last);
    }
  }

  /**
   A failed response: after the non-final chunks `cs` the transport error arrives. The chunks
   already added stay in the buffer, the status is `Ready`, the change handler is told
   `BrokenReply` while `Receiving` is still visible, and the document handler is never called.
   */
  lemma FailedResponse(w: WifiState, cs: seq<Bytes>)
    requires w.status == Receiving
    ensures var r := Run(w, Chunks(cs) + [ErrorIn]);
      && r.state == w.(status := Ready, buffer := AppendAll(w.buffer, cs))
      && r.trace[|r.trace| - 1] == StatusCalled(w.statusHandler, BrokenReply, Receiving)
      && r.trace == seq(|cs|, i => StatusCalled(w.statusHandler, Receiving, Receiving))
                    + [StatusCalled(w.statusHandler, BrokenReply, Receiving)]
      && forall i :: 0 <= i < |r.trace| ==> !r.trace[i].ReceivedCalled?
  {
    var mid := Run(w, Chunks(cs));
    RunConcat(w, Chunks(cs), [ErrorIn]);
    ChunksAccumulate(w, cs);
    var err := ErrorCallback(mid.state);
    assert Run(mid.state, [ErrorIn]) == Step(err.state, err.trace + []);
    var t := mid.trace + err.trace;
    assert |t| == |cs| + 1 && t[|cs|] == err.trace[0];
    forall i | 0 <= i < |t|
      ensures !t[i].ReceivedCalled?
    {
      if i < |cs| {
        assert t[i] == mid.trace[i];
      }
    }
  }

  /** Data delivered after the failure of the request changes nothing and notifies nobody. */
  lemma FailedContextIgnored(w: WifiState, chunk: Bytes, finished: bool)
    ensures Run(w, [DataIn(true, chunk, finished)]) == Step(w, [])
  {
  }

  /** A request refused because the status is not `Ready` leaves the status, buffer and document handler as they were. */
  lemma RejectedGetChangesOnlyStatusHandler(w: WifiState, input: Input)
    requires input.GetIn? && w.status != Ready
    ensures var r := Run(w, [input]);
      && r.state.status == w.status
      && r.state.buffer == w.buffer
      && r.state.receivedHandler == w.receivedHandler
      && r.state.client == w.client
      && r.trace == [StatusCalled(r.state.statusHandler, w.status, w.status)]
  {
  }

  /**
   A connection attempt with credentials, then the radio's ready event: the radio is initialised
   once, joined and given the callback, and the ready handler runs exactly once, last, seeing `Ready`.
   */
  lemma ScenarioConnect(h: Handler, ssid: Bytes, password: Bytes)
    ensures var r := Run(NewWifi(), [ConnectIn(h, Some(ssid), Some(password)), NetworkReadyIn]);
      && r.state.status == Ready
      && RadioInits(r.trace) == 1
      && r.trace == [RadioInitialised, RadioJoined(ssid, password), ReadyCallbackRegistered,
                     ConnectCalled(Some(h), Ready)]
  {
    var c := Connect(NewWifi(), h, Some(ssid), Some(password));
    RunConcat(NewWifi(), [ConnectIn(h, Some(ssid), Some(password))], [NetworkReadyIn]);
    assert Run(NewWifi(), [ConnectIn(h, Some(ssid), Some(password))]).trace == c.trace + [];
    assert Run(c.state, [NetworkReadyIn]).trace == [ConnectCalled(Some(h), Ready)] + [];
    assert Run(NewWifi(), [ConnectIn(h, Some(ssid), Some(password)), NetworkReadyIn]).trace
      == c.trace + [ConnectCalled(Some(h), Ready)] by {
      assert [ConnectIn(h, Some(ssid), Some(password)), NetworkReadyIn]
        == [ConnectIn(h, Some(ssid), Some(password))] + [NetworkReadyIn];
    }
    RadioInitsConcat(c.trace, [ConnectCalled(Some(h), Ready)]);
    assert [ConnectCalled(Some(h), Ready)][1..] == [];
    assert RadioInits([ConnectCalled(Some(h), Ready)]) == 0;
  }

  /** Counting radio initialisations distributes over concatenated traces. */
  lemma {:induction false} RadioInitsConcat(a: seq<Event>, b: seq<Event>)
    ensures RadioInits(a + b) == RadioInits(a) + RadioInits(b)
    decreases |a|
  {
    if |a| == 0 {
      assert a + b == b;
    } else {
      assert (a + b)[0] == a[0];
      assert (a + b)[1..] == a[1..] + b;
      RadioInitsConcat(a[1..], b);
    }
  }

  /**
   A request, two chunks "ab" and "cd", then the final chunk "ef" on an empty buffer: the buffer
   holds "abcdef", the change handler hears `Receiving` twice and `Ready` once, and the document
   handler is called exactly once, last.
   */
  lemma ScenarioThreeChunks(w: WifiState, url: Url, dh: Handler, ch: Handler)
    requires w.status == Ready
    ensures var ab: Bytes := [97, 98];
      var cd: Bytes := [99, 100];
      var ef: Bytes := [101, 102];
      var r := Run(w, [GetIn(url, Some([]), Some(dh), Some(ch))] + Chunks([ab, cd]) + [DataIn(false, ef, true)]);
      && r.state.status == Ready
      && r.state.buffer == Some([97, 98, 99, 100, 101, 102])
      && r.trace == [ClientOpened(url),
                     StatusCalled(Some(ch), Receiving, Receiving),
                     StatusCalled(Some(ch), Receiving, Receiving),
                     StatusCalled(Some(ch), Ready, Ready),
                     ReceivedCalled(Some(dh), Some([97, 98, 99, 100, 101, 102]), Ready)]
  {
    var ab: Bytes := [97, 98];
    var cd: Bytes := [99, 100];
    var ef: Bytes := [101, 102];
    var g := [GetIn(url, Some([]), Some(dh), Some(ch))];
    var rest := Chunks([ab, cd]) + [DataIn(false, ef, true)];
    assert g + Chunks([ab, cd]) + [DataIn(false, ef, true)] == g + rest;
    RunConcat(w, g, rest);
    var w1 := Run(w, g).state;
    SuccessfulResponse(w1, [ab, cd], ef);
    assert Concat([ab, cd] + [ef]) == ab + cd + ef by {
      ConcatSnoc([ab, cd], ef);
      assert Concat([ab, cd]) == ab + Concat([cd]);
      assert Concat([cd]) == cd + Concat([]);
    }
    assert [] + (ab + cd + ef) == [97, 98, 99, 100, 101, 102];
  }

  /** A transport error before any chunk: the buffer stays empty and the document handler never runs. */
  lemma ScenarioErrorFirst(w: WifiState, url: Url, dh: Handler, ch: Handler)
    requires w.status == Ready
    ensures var r := Run(w, [GetIn(url, Some([]), Some(dh), Some(ch)), ErrorIn]);
      && r.state.status == Ready
      && r.state.buffer == Some([])
      && r.trace[|r.trace| - 1] == StatusCalled(Some(ch), BrokenReply, Receiving)
      && forall i :: 0 <= i < |r.trace| ==> !r.trace[i].ReceivedCalled?
  {
    RunConcat(w, [GetIn(url, Some([]), Some(dh), Some(ch))], [ErrorIn]);
  }

  /** A request while still connecting is refused with `NotReady` and the status stays `Connecting`. */
  lemma ScenarioGetWhileConnecting(w: WifiState, url: Url)
    requires w.status == Connecting
    ensures Get(w, url, None, None, None).ret == NotReady
    ensures Get(w, url, None, None, None).state == w
  {
  }
}

=== FILE: wifi_status.dfy ===
/** The status enumeration of the wireless connection manager. */
module WifiStatus {

  /** `Wifi::Status`: one value is current at any time. */
  datatype Status =
    | NotConnected
    | BrokenConfiguration
    | Connecting
    | Ready
    | NotReady
    | BrokenUrl
    | Receiving
    | BrokenReply

  /** The statuses in declaration order. */
  const AllStatuses: seq<Status> :=
    [NotConnected, BrokenConfiguration, Connecting, Ready, NotReady, BrokenUrl, Receiving, BrokenReply]

  /** The integer value the C++ enumeration gives each status. */
  function Ordinal(s: Status): (r: nat)
    ensures r < |AllStatuses|
    ensures AllStatuses[r] == s
  {
    match s
    case NotConnected => 0
    case BrokenConfiguration => 1
    case Connecting => 2
    case Ready => 3
    case NotReady => 4
    case BrokenUrl => 5
    case Receiving => 6
    case BrokenReply => 7
  }

  /** The status with a given integer value. */
  function FromOrdinal(n: nat): (s: Status)
    requires n < |AllStatuses|
    ensures Ordinal(s) == n
  {
    AllStatuses[n]
  }

  /** There are exactly eight statuses, numbered 0..7 in declaration order, and the numbering is a bijection. */
  lemma OrdinalsFollowDeclarationOrder()
    ensures |AllStatuses| == 8
    ensures forall s: Status :: s in AllStatuses
    ensures forall i :: 0 <= i < |AllStatuses| ==> Ordinal(AllStatuses[i]) == i
    ensures forall s: Status :: FromOrdinal(Ordinal(s)) == s
    ensures forall s, t: Status :: Ordinal(s) == Ordinal(t) ==> s == t
  {
    forall s: Status
      ensures s in AllStatuses
    {
      assert AllStatuses[Ordinal(s)] == s;
    }
  }
}
